=== FILE: README.md ===
# Cyclomatic complexity of C functions (ClangComplexityBear)

This project models the analysis core of coala's `ClangComplexityBear`. The
bear walks the syntax tree that Clang builds for a C file. For every function
definition of that file it computes a McCabe-style cyclomatic complexity and
reports the functions whose complexity is strictly above `max_complexity`
(default 8).

The model has five modules:

- `Syntax` (`syntax.dfy`): the tree as the walk sees it. A node has a kind, an
  optional originating file and its children in source order. The Clang kinds
  the bear tells apart are modelled one by one. Every other kind is `Other`.
  `DecisiveKinds` is the bear's set of decision kinds: if, while, for,
  `default` and `case`. `Subtree`/`Forest` flatten a tree in pre-order and
  `CountOf` counts the nodes of given kinds. These are the independent
  reference definitions that the walk is proved against.
- `KeyPoints` (`keypoints.dfy`): `function_key_points`. The method
  `FunctionKeyPoints` keeps the source's loop with its two counters and its
  early `return` at a top-level return statement. It is proved equal to the
  specification function `KeyPointsOf`. The lemmas then relate `KeyPointsOf`
  to plain counts over the pre-order of the tree.
- `Discovery` (`discovery.dfy`): the `complexities` generator, modelled as a
  function that returns the sequence of `(declaration, complexity)` pairs the
  generator yields, in order.
- `Threshold` (`threshold.dfy`): the loop of `run` that keeps the pairs whose
  complexity exceeds the maximum.
- `Scenarios` (`scenarios.dfy`): small translation units worked through the
  walk, discovery and the filter.

The body of a function is its first child that is not a parameter
declaration. The complexity is `max(1, decisions - exits + 2)`, computed by a
walk over that body at the top level. At the top level the first direct
`return` ends the walk: it counts as one exit and nothing after it is
counted. Without such a return, an implicit return at the end counts as one
exit. Below the top level every child is walked and every return counts.
Every node counted as a decision or an exit is also descended into, except
the top-level return that ends the walk.

Three consequences of the code are worth knowing:

- The discovery walk never descends into a function declaration (lines
  57-67). A function defined inside another function is therefore not
  measured on its own. `Discovery.FunctionDeclNotDescended` states this.
- A node without file information passes the file check at line 53 once
  discovery reaches it. A node below an ancestor from another file is never
  reached, because line 55 cuts off that ancestor's whole subtree.
- One more decision point raises the complexity by exactly one only when the
  top-level walk reaches it and the clamp at 1 is not in force
  (`Discovery.InsertedDecisionRaisesComplexity`). The walk reaches it when it
  sits inside a child before the first top-level return, or among the body's
  children no later than that return.
  `Scenarios.ClampAbsorbsDecision` gives a body where an added `if (a) {}` leaves
  the complexity at 1.

## Model

| member | source | states |
|---|---|---|
| KeyPoints.FunctionKeyPoints | bears/c_languages/ClangComplexityBear.py:19-44 | the loop with its early return produces exactly the counts `KeyPointsOf(cursor, topFunctionLevel)` |
| KeyPoints.FirstReturn | bears/c_languages/ClangComplexityBear.py:31-35 | the position where the top-level walk stops is a return statement (or the end of the children) and no earlier child is a return |
| KeyPoints.FirstReturnIs | bears/c_languages/ClangComplexityBear.py:31-35 | that stopping position is unique: any position with a return (or the end) there and no return before it is the stopping position |
| KeyPoints.WalkedIsCensus | bears/c_languages/ClangComplexityBear.py:28-38 | walking the first `i` children counts exactly the decisive nodes and the return statements in their whole subtrees |
| KeyPoints.NestedCountsDescendants | bears/c_languages/ClangComplexityBear.py:26-38 | below the top level, decisions = number of decisive strict descendants and exits = number of return strict descendants |
| KeyPoints.TopLevelWithoutReturn | bears/c_languages/ClangComplexityBear.py:28-42 | at the top level with no direct return: all decisive descendants are counted, and exits = return descendants + 1 for the implicit return |
| KeyPoints.TopLevelStopsAtFirstReturn | bears/c_languages/ClangComplexityBear.py:31-35 | at the top level, only the subtrees before the first direct return are counted, plus that return as one exit; no implicit return is added |
| KeyPoints.IgnoresAfterTopLevelReturn | bears/c_languages/ClangComplexityBear.py:33-35 | replacing the first direct return by any return and everything after it by anything leaves the top-level counts unchanged |
| KeyPoints.NestedWalkAppends | bears/c_languages/ClangComplexityBear.py:28-38 | below the top level a child appended after any children, returns among them included, still adds its own mark and its whole walk |
| KeyPoints.NestedReturnDoesNotStop | bears/c_languages/ClangComplexityBear.py:31-42 | at the top level with no direct return, returns nested inside the children do not stop the walk: an appended non-return sibling adds its mark and its whole walk, and an appended direct return replaces the implicit exit, leaving the counts unchanged |
| KeyPoints.InsertedDecisionAddsOne | bears/c_languages/ClangComplexityBear.py:29-30 | inserting a decision point with no decision and no return beneath it among the top-level children, no later than the first direct return, adds exactly one decision and no exit |
| KeyPoints.NestedInsertedDecisionAddsOne | bears/c_languages/ClangComplexityBear.py:28-38 | below the top level, a decision point with no decision and no return beneath it, inserted at any depth, adds exactly one decision and no exit |
| KeyPoints.DecisionInsertedAnywhereAddsOne | bears/c_languages/ClangComplexityBear.py:28-36 | at the top level, a decision point with no decision and no return beneath it, inserted at any depth inside a child before the first direct return, or among the children no later than it, adds exactly one decision and no exit |
| KeyPoints.WalkedNonNegative | bears/c_languages/ClangComplexityBear.py:26-38 | both counters are never negative |
| KeyPoints.WalkedGrows | bears/c_languages/ClangComplexityBear.py:28-38 | the counters never decrease as the loop goes over more children |
| KeyPoints.NoKeyPointsBelow | bears/c_languages/ClangComplexityBear.py:40-42 | a body with no decisive and no return node below it has no decision and only the implicit exit |
| Discovery.BodyIndex | bears/c_languages/ClangComplexityBear.py:58-60 | the body is absent exactly when every child is a parameter declaration; otherwise it is the first child that is not one |
| Discovery.Complexity | bears/c_languages/ClangComplexityBear.py:63 | the complexity is at least 1 and at least `decisions - exits + 2`, and equals one of the two |
| Discovery.Complexities | bears/c_languages/ClangComplexityBear.py:46-67 | every yielded pair is an in-file function declaration that has a body, and its complexity is that body's complexity and is at least 1 |
| Discovery.ReachedDefinitionFound | bears/c_languages/ClangComplexityBear.py:51-67 | every in-file definition reached through in-file nodes that are not function declarations is yielded, with its body's complexity |
| Discovery.FoundDefinitionReached | bears/c_languages/ClangComplexityBear.py:51-67 | every yielded declaration is reached from the root through in-file nodes that are not function declarations |
| Discovery.AtMostOnePerFunctionDecl | bears/c_languages/ClangComplexityBear.py:57-67 | no more pairs are yielded than there are function declarations in the tree |
| Discovery.FunctionDeclNotDescended | bears/c_languages/ClangComplexityBear.py:57-64 | a function declaration yields at most one pair, about itself, and yields one exactly when it is in the file and has a non-parameter child; nested declarations are not visited |
| Discovery.DiscoveryPicksInPreorder | bears/c_languages/ClangComplexityBear.py:57-67 | the yielded declarations are exactly the nodes discovery picks, taken in pre-order |
| Discovery.DiscoveryFollowsPreorder | bears/c_languages/ClangComplexityBear.py:65-67 | the yielded declarations form a subsequence of the pre-order traversal of the tree |
| Discovery.ForeignChildContributesNothing | bears/c_languages/ClangComplexityBear.py:51-55 | removing a child that comes from another file, with its whole subtree, does not change what is yielded |
| Discovery.InsertedDecisionRaisesComplexity | bears/c_languages/ClangComplexityBear.py:62-63 | one more decision point with no decision and no return beneath it, anywhere the top-level walk reaches, raises the complexity by exactly one when the clamp is not in force |
| Discovery.StraightLineComplexityOne | bears/c_languages/ClangComplexityBear.py:62-63 | a function whose body has no decision point and no return has complexity 1 |
| Discovery.SingleDecisionComplexityTwo | bears/c_languages/ClangComplexityBear.py:62-63 | a function whose body has exactly one decision point and no return has complexity 2 |
| Threshold.ExceedingKeepsExactly | bears/c_languages/ClangComplexityBear.py:83-84 | a pair is reported if and only if it was found and its complexity is strictly greater than the maximum |
| Threshold.ExceedingIsSubsequence | bears/c_languages/ClangComplexityBear.py:83-84 | the reported pairs keep the order of discovery: they are the found pairs with some left out |
| Threshold.Run | bears/c_languages/ClangComplexityBear.py:69-84 | the loop reports exactly the discovered pairs above the maximum, in order; the maximum defaults to 8 |
| Scenarios.ReturnOnlyHasComplexityOne | bears/c_languages/ClangComplexityBear.py:31-35 | `int f() { return 1; }` yields one pair with complexity 1 |
| Scenarios.NestedIfsHaveComplexityThree | bears/c_languages/ClangComplexityBear.py:26-44 | `if (a) { if (b) {} } return 0;` after two parameters has 2 decisions and 1 exit, so complexity 3 |
| Scenarios.OneIfHasComplexityTwo | bears/c_languages/ClangComplexityBear.py:40-42 | one `if` and the implicit return give complexity 2 |
| Scenarios.ClampAbsorbsDecision | bears/c_languages/ClangComplexityBear.py:63 | three exits and no decision are clamped to 1, and an added `if` leaves the complexity at 1 |
| Scenarios.UnitDiscovery | bears/c_languages/ClangComplexityBear.py:51-67 | in a unit with a definition from another file, a prototype and three definitions, only the three definitions are yielded, in source order |
| Scenarios.ThresholdIsStrict | bears/c_languages/ClangComplexityBear.py:69-84 | with the default maximum 8, complexity 8 is not reported and complexity 9 is |

## Left out

- Parsing the file with Clang (line 82) is not modelled. `Threshold.Run` takes the root of the parsed tree as a parameter.
- `check_prerequisites` (line 14) is not modelled. It checks whether the Clang library is available, which is an environment question.
- Building the `Result` and its `SourceRange` and formatting the message with the display name (lines 85-94) are not modelled. `Threshold.Run` returns the `(declaration, complexity)` pairs that would be reported.
- Generators are modelled as sequences. Their laziness and interleaving are not modelled. The order of the pairs is kept.
- Cursor kinds the bear does not inspect are collapsed into `Other`. A source location is reduced to the name of its file, or to nothing.
- Counters and complexities are unbounded integers, as in Python, so there is no wrap-around to model.
- A Clang cursor found as the body is always truthy in the check at line 61. The model treats any non-parameter child as a body.
- Discovery.Complexities: its own contract states only that each yielded pair is valid. Discovery.ReachedDefinitionFound, Discovery.FoundDefinitionReached and Discovery.DiscoveryFollowsPreorder state, about the same function, which pairs are yielded and in what order.
- KeyPoints.InsertedDecisionAddsOne: covers one decision point with no decision and no return beneath it, inserted among the top-level children. KeyPoints.DecisionInsertedAnywhereAddsOne covers such a decision point at any depth.
- Discovery.InsertedDecisionRaisesComplexity: covers an inserted decision point with no decision and no return beneath it, such as `if (a) {}`. A decision point inserted with further decisions or returns beneath it adds their key points as well.
- Both walks recurse in Python (lines 36 and 67). On a tree deeper than Python's recursion limit (1000 frames by default), the bear fails with `RecursionError`. A long chain of binary operators can be that deep. The model is total and returns counts for every tree.

=== FILE: discovery.dfy ===
/** Function discovery of `complexities`: every function definition of the
    analysed file, in traversal order, with its cyclomatic complexity. */
module Discovery {
  import opened Syntax
  import opened KeyPoints
  import opened Subsequences

  /** A discovered function declaration and its complexity. */
  datatype Measured = Measured(decl: Node, complexity: int)

  /** The position of the first child that is not a parameter declaration:
      the body of a function declaration, absent for a prototype. */
  function BodyIndex(cs: seq<Node>): (b: Option<nat>)
    ensures b.None? <==> forall j :: 0 <= j < |cs| ==> cs[j].kind == ParmDecl
    ensures b.Some? ==> b.value < |cs| && cs[b.value].kind != ParmDecl
    ensures b.Some? ==> forall j :: 0 <= j < b.value ==> cs[j].kind == ParmDecl
  {
    if cs == [] then None
    else if cs[0].kind != ParmDecl then Some(0)
    else
      match BodyIndex(cs[1..])
      case None => None
      case Some(k) => Some(k + 1)
  }

  /** The complexity `max(1, decisions - exits + 2)`. */
  function Complexity(t: Tally): (c: int)
    ensures c >= 1 && c >= t.decisions - t.exits + 2
    ensures c == 1 || c == t.decisions - t.exits + 2
  {
    if t.decisions - t.exits + 2 > 1 then t.decisions - t.exits + 2 else 1
  }

  /** A node belongs to the analysed file unless its file is known and is
      another one. */
  predicate InFile(n: Node, filename: string)
  {
    n.file.None? || n.file.value == filename
  }

  /** The complexity of a function declaration, measured on its body with
      the walk at the top level. */
  function BodyComplexity(n: Node): int
    requires BodyIndex(n.children).Some?
  {
    Complexity(KeyPointsOf(n.children[BodyIndex(n.children).value], true))
  }

  /** Every pair this yields is a function declaration of the analysed file
      that has a body; its complexity is that of the
      body and is at least 1. */
  function Complexities(n: Node, filename: string): (r: seq<Measured>)
    ensures forall m :: m in r ==>
      && m.decl.kind == FunctionDecl
      && InFile(m.decl, filename)
      && BodyIndex(m.decl.children).Some?
      && m.complexity == BodyComplexity(m.decl)
      && m.complexity >= 1
    decreases n, |n.children| + 1
  {
    if !InFile(n, filename) then []
    else if n.kind == FunctionDecl then
      match BodyIndex(n.children)
      case None => []
      case Some(b) => [Measured(n, Complexity(KeyPointsOf(n.children[b], true)))]
    else ComplexitiesOf(n, |n.children|, filename)
  }

  /** Discovery over the first `i` children of `n`, one after the other. */
  function ComplexitiesOf(n: Node, i: nat, filename: string): (r: seq<Measured>)
    requires i <= |n.children|
    ensures forall m :: m in r ==>
      && m.decl.kind == FunctionDecl
      && InFile(m.decl, filename)
      && BodyIndex(m.decl.children).Some?
      && m.complexity == BodyComplexity(m.decl)
      && m.complexity >= 1
    decreases n, i
  {
    if i == 0 then []
    else ComplexitiesOf(n, i - 1, filename) + Complexities(n.children[i - 1], filename)
  }

  /** At most as many pairs as there are function declarations in the
      subtree. */
  lemma {:induction false} AtMostOnePerFunctionDecl(n: Node, filename: string)
    ensures |Complexities(n, filename)| <= CountOf(Subtree(n), {FunctionDecl})
    decreases n, |n.children| + 1
  {
    CountOfAppend([n], Descendants(n), {FunctionDecl});
    if InFile(n, filename) && n.kind != FunctionDecl {
      AtMostOnePerFunctionDeclOf(n, |n.children|, filename);
    }
  }

  lemma {:induction false} AtMostOnePerFunctionDeclOf(n: Node, i: nat, filename: string)
    requires i <= |n.children|
    ensures |ComplexitiesOf(n, i, filename)| <= CountOf(Forest(n, i), {FunctionDecl})
    decreases n, i
  {
    if i > 0 {
      AtMostOnePerFunctionDeclOf(n, i - 1, filename);
      AtMostOnePerFunctionDecl(n.children[i - 1], filename);
      CountOfAppend(Forest(n, i - 1), Subtree(n.children[i - 1]), {FunctionDecl});
    }
  }

  /** A function declaration yields at most itself: a prototype (only
      parameter declarations below it) yields nothing, a definition yields
      one pair, and nothing below it is discovered, nested declarations
      included. */
  lemma {:induction false} FunctionDeclNotDescended(n: Node, filename: string)
    requires n.kind == FunctionDecl
    ensures |Complexities(n, filename)| <= 1
    ensures forall m :: m in Complexities(n, filename) ==> m.decl == n
    ensures |Complexities(n, filename)| == 1 <==>
      InFile(n, filename) && exists j :: 0 <= j < |n.children| && n.children[j].kind != ParmDecl
  {
  }

  /** The function declarations of the yielded pairs, in order. */
  function Decls(r: seq<Measured>): (ds: seq<Node>)
    ensures |ds| == |r|
  {
    if r == [] then [] else Decls(r[..|r| - 1]) + [r[|r| - 1].decl]
  }

  lemma {:induction false} DeclsAppend(a: seq<Measured>, b: seq<Measured>)
    ensures Decls(a + b) == Decls(a) + Decls(b)
    decreases |b|
  {
    if b == [] {
      assert a + b == a;
    } else {
      assert (a + b)[..|a + b| - 1] == a + b[..|b| - 1];
      DeclsAppend(a, b[..|b| - 1]);
    }
  }

  /** Which nodes of `Subtree(n)` discovery picks, position by position. */
  ghost function Picked(n: Node, filename: string): (keep: seq<bool>)
    ensures |keep| == |Subtree(n)|
    decreases n, |n.children| + 1
  {
    if !InFile(n, filename) then Nothing(|Subtree(n)|)
    else if n.kind == FunctionDecl then [BodyIndex(n.children).Some?] + Nothing(|Descendants(n)|)
    else [false] + PickedOf(n, |n.children|, filename)
  }

  ghost function PickedOf(n: Node, i: nat, filename: string): (keep: seq<bool>)
    requires i <= |n.children|
    ensures |keep| == |Forest(n, i)|
    decreases n, i
  {
    if i == 0 then [] else PickedOf(n, i - 1, filename) + Picked(n.children[i - 1], filename)
  }

  /** Discovery yields the declarations it picks out of the pre-order of the
      tree, in that order. */
  lemma {:induction false} DiscoveryPicksInPreorder(n: Node, filename: string)
    ensures Decls(Complexities(n, filename)) == Select(Subtree(n), Picked(n, filename))
    decreases n, |n.children| + 1
  {
    if !InFile(n, filename) {
      SelectNothing(Subtree(n));
    } else if n.kind == FunctionDecl {
      var b := BodyIndex(n.children).Some?;
      SelectAppend([n], [b], Descendants(n), Nothing(|Descendants(n)|));
      SelectNothing(Descendants(n));
      assert Select([n], [b]) == if b then [n] else [];
    } else {
      DiscoveryPicksInPreorderOf(n, |n.children|, filename);
      SelectAppend([n], [false], Descendants(n), PickedOf(n, |n.children|, filename));
      assert Select([n], [false]) == [];
    }
  }

  lemma {:induction false} DiscoveryPicksInPreorderOf(n: Node, i: nat, filename: string)
    requires i <= |n.children|
    ensures Decls(ComplexitiesOf(n, i, filename)) == Select(Forest(n, i), PickedOf(n, i, filename))
    decreases n, i
  {
    if i > 0 {
      var c := n.children[i - 1];
      var before, here := ComplexitiesOf(n, i - 1, filename), Complexities(c, filename);
      var forest, picked := Forest(n, i - 1), PickedOf(n, i - 1, filename);
      DiscoveryPicksInPreorderOf(n, i - 1, filename);
      DiscoveryPicksInPreorder(c, filename);
      DeclsAppend(before, here);
      SelectAppend(forest, picked, Subtree(c), Picked(c, filename));
      assert Decls(before) == Select(forest, picked);
      assert Decls(here) == Select(Subtree(c), Picked(c, filename));
      assert Decls(before + here) == Select(forest, picked) + Select(Subtree(c), Picked(c, filename));
    }
  }

  /** The discovered declarations appear in the order of a pre-order
      traversal of the tree. */
  lemma {:induction false} DiscoveryFollowsPreorder(n: Node, filename: string)
    ensures IsSubsequence(Decls(Complexities(n, filename)), Subtree(n))
  {
    DiscoveryPicksInPreorder(n, filename);
  }

  /** A child from another file contributes nothing, with all of its
      subtree: discovery over a node without it yields the same pairs. */
  lemma {:induction false} ForeignChildContributesNothing(n: Node, i: nat, filename: string)
    requires n.kind != FunctionDecl
    requires i < |n.children| && !InFile(n.children[i], filename)
    ensures Complexities(Node(n.kind, n.file, n.children[..i] + n.children[i + 1..]), filename)
         == Complexities(n, filename)
  {
    var m := Node(n.kind, n.file, n.children[..i] + n.children[i + 1..]);
    assert m.children[..i] == n.children[..i];
    ComplexitiesOfSharedPrefix(n, m, i, filename);
    assert forall x :: i <= x < |m.children| ==> m.children[x] == n.children[x + 1];
    WithoutForeignChild(n, m, i, |m.children|, filename);
  }

  /** Two nodes that share their first `i` children discover the same pairs
      among them. */
  lemma {:induction false} ComplexitiesOfSharedPrefix(n: Node, m: Node, i: nat, filename: string)
    requires i <= |n.children| && i <= |m.children|
    requires n.children[..i] == m.children[..i]
    ensures ComplexitiesOf(n, i, filename) == ComplexitiesOf(m, i, filename)
    decreases i
  {
    if i > 0 {
      assert n.children[i - 1] == n.children[..i][i - 1] == m.children[i - 1];
      assert n.children[..i - 1] == n.children[..i][..i - 1];
      assert m.children[..i - 1] == m.children[..i][..i - 1];
      ComplexitiesOfSharedPrefix(n, m, i - 1, filename);
    }
  }

  /** Helper of ForeignChildContributesNothing: past the removed child, the
      shorter child list discovers what the longer one does. */
  lemma {:induction false} WithoutForeignChild(n: Node, m: Node, i: nat, k: nat, filename: string)
    requires i <= k <= |m.children| && |m.children| + 1 == |n.children|
    requires !InFile(n.children[i], filename)
    requires forall x :: i <= x < |m.children| ==> m.children[x] == n.children[x + 1]
    requires ComplexitiesOf(n, i, filename) == ComplexitiesOf(m, i, filename)
    ensures ComplexitiesOf(n, k + 1, filename) == ComplexitiesOf(m, k, filename)
    decreases k
  {
    if k == i {
      assert Complexities(n.children[i], filename) == [];
    } else {
      WithoutForeignChild(n, m, i, k - 1, filename);
      assert m.children[k - 1] == n.children[k];
    }
  }

  /** One more decision point, with no decision and no return beneath it,
      anywhere in a body that the top-level
      walk reaches (inside a child before the first direct return, or among
      the body's children no later than it) raises the complexity by exactly
      one unless the clamp at 1 is in force. */
  lemma {:induction false} InsertedDecisionRaisesComplexity(body: Node, path: seq<nat>, d: Node)
    requires InsertionPoint(body, path)
    requires path[0] < FirstReturn(body.children) || (|path| == 1 && path[0] == FirstReturn(body.children))
    requires d.kind in DecisiveKinds && KeyPointsOf(d, false) == Tally(0, 0)
    requires KeyPointsOf(body, true).decisions - KeyPointsOf(body, true).exits + 2 >= 1
    ensures Complexity(KeyPointsOf(InsertAt(body, path, d), true)) == Complexity(KeyPointsOf(body, true)) + 1
  {
    DecisionInsertedAnywhereAddsOne(body, path, d);
  }

  /** A function whose body holds no decision point and no return has
      complexity 1: no decision and the implicit exit. */
  lemma {:induction false} StraightLineComplexityOne(f: Node)
    requires BodyIndex(f.children).Some?
    requires var body := f.children[BodyIndex(f.children).value];
      CountOf(Descendants(body), DecisiveKinds) == 0 && CountOf(Descendants(body), {ReturnStmt}) == 0
    ensures BodyComplexity(f) == 1
  {
    NoKeyPointsBelow(f.children[BodyIndex(f.children).value]);
  }

  /** A function whose body holds exactly one decision point and no return
      has complexity 2: one decision and the implicit exit. */
  lemma {:induction false} SingleDecisionComplexityTwo(f: Node)
    requires BodyIndex(f.children).Some?
    requires var body := f.children[BodyIndex(f.children).value];
      CountOf(Descendants(body), DecisiveKinds) == 1 && CountOf(Descendants(body), {ReturnStmt}) == 0
    ensures BodyComplexity(f) == 2
  {
    var body := f.children[BodyIndex(f.children).value];
    WalkedIsCensus(body, |body.children|);
    FirstReturnCounted(body);
    TopLevelWithoutReturn(body);
  }

  /** Discovery goes down from `n` along `path` to `d`: each position picks
      a child, and every node above `d` on the way is of the analysed file
      and is not a function declaration, so discovery visits its children. */
  predicate Reaches(n: Node, path: seq<nat>, d: Node, filename: string)
    decreases |path|
  {
    if path == [] then n == d
    else
      && InFile(n, filename) && n.kind != FunctionDecl && path[0] < |n.children|
      && Reaches(n.children[path[0]], path[1..], d, filename)
  }

  /** Every function definition of the analysed file that discovery reaches
      is yielded, with the complexity of its body. */
  lemma {:induction false} ReachedDefinitionFound(n: Node, path: seq<nat>, d: Node, filename: string)
    requires Reaches(n, path, d, filename)
    requires d.kind == FunctionDecl && InFile(d, filename) && BodyIndex(d.children).Some?
    ensures Measured(d, BodyComplexity(d)) in Complexities(n, filename)
    decreases |path|
  {
    if path != [] {
      ReachedDefinitionFound(n.children[path[0]], path[1..], d, filename);
      FoundInChild(n, path[0], |n.children|, Measured(d, BodyComplexity(d)), filename);
    }
  }

  /** Helper of ReachedDefinitionFound: what a child yields, its parent's
      loop yields. */
  lemma {:induction false} FoundInChild(n: Node, i: nat, k: nat, m: Measured, filename: string)
    requires i < k <= |n.children|
    requires m in Complexities(n.children[i], filename)
    ensures m in ComplexitiesOf(n, k, filename)
    decreases k
  {
    if k > i + 1 {
      FoundInChild(n, i, k - 1, m, filename);
    }
  }

  /** Conversely, every yielded pair is a declaration that discovery
      reaches. */
  lemma {:induction false} FoundDefinitionReached(n: Node, m: Measured, filename: string)
    requires m in Complexities(n, filename)
    ensures exists path :: Reaches(n, path, m.decl, filename)
    decreases n, |n.children| + 1
  {
    if n.kind == FunctionDecl {
      assert Reaches(n, [], m.decl, filename);
    } else {
      var i := ChildYielding(n, |n.children|, m, filename);
      var c := n.children[i];
      FoundDefinitionReached(c, m, filename);
      var path :| Reaches(c, path, m.decl, filename);
      assert ([i] + path)[0] == i && ([i] + path)[1..] == path;
      assert Reaches(n, [i] + path, m.decl, filename);
    }
  }

  /** Helper of FoundDefinitionReached: the child among the first `k`
      whose discovery yielded `m`. */
  lemma {:induction false} ChildYielding(n: Node, k: nat, m: Measured, filename: string) returns (i: nat)
    requires k <= |n.children| && m in ComplexitiesOf(n, k, filename)
    ensures i < k && m in Complexities(n.children[i], filename)
    decreases k
  {
    if m in Complexities(n.children[k - 1], filename) {
      i := k - 1;
    } else {
      i := ChildYielding(n, k - 1, m, filename);
    }
  }
}

=== FILE: keypoints.dfy ===
/** The key-point walk of `function_key_points`: the decision points and
    exit points of one function body. */
module KeyPoints {
  import opened Syntax

  /** The two counters threaded through the walk. */
  datatype Tally = Tally(decisions: int, exits: int)

  /** What a child adds at its own level, by its kind alone. */
  function Mark(k: Kind): Tally
  {
    if k in DecisiveKinds then Tally(1, 0)
    else if k == ReturnStmt then Tally(0, 1)
    else Tally(0, 0)
  }

  /** The counts after the loop has gone over the first `i` children of `n`
      without stopping: each child adds its own mark and the counts of a
      walk over it below the top level. */
  function Walked(n: Node, i: nat): Tally
    requires i <= |n.children|
    decreases n, i
  {
    if i == 0 then Tally(0, 0)
    else
      var before, c := Walked(n, i - 1), n.children[i - 1];
      var mark, below := Mark(c.kind), Walked(c, |c.children|);
      Tally(before.decisions + mark.decisions + below.decisions, before.exits + mark.exits + below.exits)
  }

  /** The position of the first child of kind `ReturnStmt`, or `|cs|` when
      there is none. */
  function FirstReturn(cs: seq<Node>): (k: nat)
    ensures k <= |cs|
    ensures k < |cs| ==> cs[k].kind == ReturnStmt
    ensures forall j :: 0 <= j < k ==> cs[j].kind != ReturnStmt
  {
    FirstReturnFrom(cs, 0)
  }

  function FirstReturnFrom(cs: seq<Node>, i: nat): (k: nat)
    requires i <= |cs|
    ensures i <= k <= |cs|
    ensures k < |cs| ==> cs[k].kind == ReturnStmt
    ensures forall j :: i <= j < k ==> cs[j].kind != ReturnStmt
    decreases |cs| - i
  {
    if i == |cs| then i
    else if cs[i].kind == ReturnStmt then i
    else FirstReturnFrom(cs, i + 1)
  }

  /** FirstReturn is the only position with no return before it and a
      return (or the end) at it. */
  lemma {:induction false} FirstReturnIs(cs: seq<Node>, k: nat)
    requires k <= |cs| && (k < |cs| ==> cs[k].kind == ReturnStmt)
    requires forall j :: 0 <= j < k ==> cs[j].kind != ReturnStmt
    ensures FirstReturn(cs) == k
  {
  }

  /** The counts the walk returns. Below the top level every child is
      walked. At the top level the walk stops at the first direct return,
      which itself counts as one exit; when there is none, the implicit
      return at the end counts as one exit instead. */
  function KeyPointsOf(n: Node, topLevel: bool): Tally
  {
    if topLevel then
      var w := Walked(n, FirstReturn(n.children));
      Tally(w.decisions, w.exits + 1)
    else Walked(n, |n.children|)
  }

  /** The walk itself: a loop over the children that updates two counters
      and returns early at a top-level return. */
  method FunctionKeyPoints(cursor: Node, topFunctionLevel: bool) returns (decisions: int, exits: int)
    ensures Tally(decisions, exits) == KeyPointsOf(cursor, topFunctionLevel)
    decreases cursor
  {
    decisions, exits := 0, 0;
    var i := 0;
    while i < |cursor.children|
      invariant i <= |cursor.children|
      invariant topFunctionLevel ==> i <= FirstReturn(cursor.children)
      invariant Tally(decisions, exits) == Walked(cursor, i)
    {
      var child := cursor.children[i];
      if child.kind in DecisiveKinds {
        decisions := decisions + 1;
      } else if child.kind == ReturnStmt {
        exits := exits + 1;
        if topFunctionLevel {
          StopAtReturn(cursor, i);
          return;
        }
      }
      ghost var marked := Tally(decisions, exits);
      var childDecisions, childExits := FunctionKeyPoints(child, false);
      decisions := decisions + childDecisions;
      exits := exits + childExits;
      WalkStep(cursor, i, marked, Tally(childDecisions, childExits));
      PastNonReturn(cursor.children, i, topFunctionLevel);
      i := i + 1;
    }
    if topFunctionLevel {
      exits := exits + 1;
    }
    RanToEnd(cursor, topFunctionLevel);
  }

  /** One iteration of the walk's loop: the child's mark, then its own walk. */
  lemma {:induction false} WalkStep(n: Node, i: nat, marked: Tally, below: Tally)
    requires i < |n.children|
    requires var w, mark := Walked(n, i), Mark(n.children[i].kind);
      marked == Tally(w.decisions + mark.decisions, w.exits + mark.exits)
    requires below == KeyPointsOf(n.children[i], false)
    ensures Tally(marked.decisions + below.decisions, marked.exits + below.exits) == Walked(n, i + 1)
  {
  }

  /** A top-level return met before any other ends the walk with the counts
      so far and that return. */
  lemma {:induction false} StopAtReturn(n: Node, i: nat)
    requires i <= FirstReturn(n.children) && i < |n.children|
    requires n.children[i].kind == ReturnStmt
    ensures Tally(Walked(n, i).decisions, Walked(n, i).exits + 1) == KeyPointsOf(n, true)
  {
    FirstReturnIs(n.children, i);
  }

  /** At the top level, going past a child that is not a return keeps the
      walk no later than the first return. */
  lemma {:induction false} PastNonReturn(cs: seq<Node>, i: nat, topLevel: bool)
    requires i < |cs|
    requires topLevel ==> i <= FirstReturn(cs) && cs[i].kind != ReturnStmt
    ensures topLevel ==> i + 1 <= FirstReturn(cs)
  {
  }

  /** A walk that went over every child ends with the counts so far, plus
      the implicit return at the top level. */
  lemma {:induction false} RanToEnd(n: Node, topLevel: bool)
    requires topLevel ==> |n.children| <= FirstReturn(n.children)
    ensures var w := Walked(n, |n.children|);
      KeyPointsOf(n, topLevel) == Tally(w.decisions, if topLevel then w.exits + 1 else w.exits)
  {
  }

  /** How many decisive nodes and how many returns `s` holds. */
  function Census(s: seq<Node>): Tally
  {
    Tally(CountOf(s, DecisiveKinds), CountOf(s, {ReturnStmt}))
  }

  /** Counting is additive over concatenation. */
  lemma {:induction false} CensusAppend(a: seq<Node>, b: seq<Node>)
    ensures Census(a + b).decisions == Census(a).decisions + Census(b).decisions
    ensures Census(a + b).exits == Census(a).exits + Census(b).exits
  {
    CountOfAppend(a, b, DecisiveKinds);
    CountOfAppend(a, b, {ReturnStmt});
  }

  /** The walk over the first `i` children counts exactly the decisive nodes
      and the returns in their subtrees. */
  lemma {:induction false} WalkedIsCensus(n: Node, i: nat)
    requires i <= |n.children|
    ensures Walked(n, i) == Census(Forest(n, i))
    decreases n, i
  {
    if i > 0 {
      var c := n.children[i - 1];
      WalkedIsCensus(n, i - 1);
      WalkedIsCensus(c, |c.children|);
      SubtreeCensus(c);
      CensusAppend(Forest(n, i - 1), Subtree(c));
    }
  }

  /** A subtree holds its root's mark and the census of its descendants. */
  lemma {:induction false} SubtreeCensus(c: Node)
    ensures Census(Subtree(c)).decisions == Mark(c.kind).decisions + Census(Descendants(c)).decisions
    ensures Census(Subtree(c)).exits == Mark(c.kind).exits + Census(Descendants(c)).exits
  {
    assert Census([c]) == Mark(c.kind);
    CensusAppend([c], Descendants(c));
  }

  /** The walk's counts are counts of nodes, so never negative. */
  lemma {:induction false} WalkedNonNegative(n: Node, i: nat)
    requires i <= |n.children|
    ensures Walked(n, i).decisions >= 0 && Walked(n, i).exits >= 0
  {
    WalkedIsCensus(n, i);
  }

  /** Below the top level the walk counts every decisive strict descendant
      and every return strict descendant. */
  lemma {:induction false} NestedCountsDescendants(n: Node)
    ensures KeyPointsOf(n, false).decisions == CountOf(Descendants(n), DecisiveKinds)
    ensures KeyPointsOf(n, false).exits == CountOf(Descendants(n), {ReturnStmt})
  {
    WalkedIsCensus(n, |n.children|);
  }

  /** At the top level with no direct return, the counts are those of the
      nested walk plus the implicit return. */
  lemma {:induction false} TopLevelWithoutReturn(n: Node)
    requires forall j :: 0 <= j < |n.children| ==> n.children[j].kind != ReturnStmt
    ensures KeyPointsOf(n, true).decisions == CountOf(Descendants(n), DecisiveKinds)
    ensures KeyPointsOf(n, true).exits == CountOf(Descendants(n), {ReturnStmt}) + 1
  {
    FirstReturnIs(n.children, |n.children|);
    WalkedIsCensus(n, |n.children|);
  }

  /** At the top level the first direct return ends the walk: only the
      subtrees of the children before it are counted, plus the return
      itself as one exit, and no implicit return is added. */
  lemma {:induction false} TopLevelStopsAtFirstReturn(n: Node, k: nat)
    requires k < |n.children| && n.children[k].kind == ReturnStmt
    requires forall j :: 0 <= j < k ==> n.children[j].kind != ReturnStmt
    ensures KeyPointsOf(n, true).decisions == CountOf(Forest(n, k), DecisiveKinds)
    ensures KeyPointsOf(n, true).exits == CountOf(Forest(n, k), {ReturnStmt}) + 1
  {
    FirstReturnIs(n.children, k);
    WalkedIsCensus(n, k);
  }

  /** Two nodes that share their first `i` children have walked them to the
      same counts. */
  lemma {:induction false} WalkedSharedPrefix(n: Node, m: Node, i: nat)
    requires i <= |n.children| && i <= |m.children|
    requires n.children[..i] == m.children[..i]
    ensures Walked(n, i) == Walked(m, i)
    decreases i
  {
    if i > 0 {
      assert n.children[i - 1] == n.children[..i][i - 1] == m.children[i - 1];
      assert n.children[..i - 1] == n.children[..i][..i - 1];
      assert m.children[..i - 1] == m.children[..i][..i - 1];
      WalkedSharedPrefix(n, m, i - 1);
    }
  }

  /** At the top level, nothing inside the first direct return and nothing
      after it changes the counts: that return may be replaced by any other
      return and the later siblings by anything. */
  lemma {:induction false} IgnoresAfterTopLevelReturn(n: Node, k: nat, ret: Node, rest: seq<Node>)
    requires k < |n.children| && n.children[k].kind == ReturnStmt
    requires forall j :: 0 <= j < k ==> n.children[j].kind != ReturnStmt
    requires ret.kind == ReturnStmt
    ensures KeyPointsOf(Node(n.kind, n.file, n.children[..k] + [ret] + rest), true) == KeyPointsOf(n, true)
  {
    var m := Node(n.kind, n.file, n.children[..k] + [ret] + rest);
    assert m.children[..k] == n.children[..k];
    FirstReturnIs(n.children, k);
    assert m.children[k] == ret;
    FirstReturnIs(m.children, k);
    WalkedSharedPrefix(n, m, k);
  }

  /** Below the top level the walk is additive: a sibling placed after all
      the children, returns among them included, adds its own mark and
      everything beneath it. */
  lemma {:induction false} NestedWalkAppends(n: Node, later: Node)
    ensures var w, mark, below := KeyPointsOf(n, false), Mark(later.kind), KeyPointsOf(later, false);
      KeyPointsOf(Node(n.kind, n.file, n.children + [later]), false)
        == Tally(w.decisions + mark.decisions + below.decisions, w.exits + mark.exits + below.exits)
  {
    var m := Node(n.kind, n.file, n.children + [later]);
    assert m.children[..|n.children|] == n.children[..|n.children|];
    WalkedSharedPrefix(n, m, |n.children|);
  }

  /** At the top level only a direct return ends the walk. With no direct
      return among the children, returns nested inside them do not stop it:
      a sibling appended after them is still walked, with its mark and
      everything beneath it. An appended direct return instead stands in for
      the implicit one and leaves the counts as they were. */
  lemma {:induction false} NestedReturnDoesNotStop(n: Node, later: Node)
    requires forall j :: 0 <= j < |n.children| ==> n.children[j].kind != ReturnStmt
    ensures var w, mark, below := KeyPointsOf(n, true), Mark(later.kind), KeyPointsOf(later, false);
      later.kind != ReturnStmt ==>
        KeyPointsOf(Node(n.kind, n.file, n.children + [later]), true)
          == Tally(w.decisions + mark.decisions + below.decisions, w.exits + mark.exits + below.exits)
    ensures later.kind == ReturnStmt ==>
      KeyPointsOf(Node(n.kind, n.file, n.children + [later]), true) == KeyPointsOf(n, true)
  {
    var m := Node(n.kind, n.file, n.children + [later]);
    var k := |n.children|;
    assert m.children[..k] == n.children[..k];
    assert forall j :: 0 <= j < k ==> m.children[j] == n.children[j];
    assert m.children[k] == later;
    FirstReturnIs(n.children, k);
    WalkedSharedPrefix(n, m, k);
    if later.kind == ReturnStmt {
      FirstReturnIs(m.children, k);
    } else {
      FirstReturnIs(m.children, k + 1);
    }
  }

  /** Putting one more decision point with no decision and no return
      beneath it among the top-level children, no
      later than the first direct return, adds exactly one decision and no
      exit. */
  lemma {:induction false} InsertedDecisionAddsOne(n: Node, j: nat, d: Node)
    requires j <= FirstReturn(n.children)
    requires d.kind in DecisiveKinds && KeyPointsOf(d, false) == Tally(0, 0)
    ensures var m := Node(n.kind, n.file, n.children[..j] + [d] + n.children[j..]);
      KeyPointsOf(m, true) == Tally(KeyPointsOf(n, true).decisions + 1, KeyPointsOf(n, true).exits)
  {
    var m := Node(n.kind, n.file, n.children[..j] + [d] + n.children[j..]);
    InsertionShifts(n.children, j, d, m.children);
    InsertionMovesFirstReturn(n.children, j, d, m.children);
    InsertedDecisionCounted(n, m, j);
  }

  /** Helper of InsertedDecisionAddsOne, for any node `m` whose children are
      those of `n` with such a decision point inserted at position
      `j`. */
  lemma {:induction false} InsertedDecisionCounted(n: Node, m: Node, j: nat)
    requires j <= FirstReturn(n.children)
    requires |m.children| == |n.children| + 1
    requires m.children[j].kind in DecisiveKinds && KeyPointsOf(m.children[j], false) == Tally(0, 0)
    requires m.children[..j] == n.children[..j]
    requires forall x :: j <= x < |n.children| ==> m.children[x + 1] == n.children[x]
    requires FirstReturn(m.children) == FirstReturn(n.children) + 1
    ensures KeyPointsOf(m, true) == Tally(KeyPointsOf(n, true).decisions + 1, KeyPointsOf(n, true).exits)
  {
    WalkedSharedPrefix(n, m, j);
    ShiftedWalk(n, m, j, FirstReturn(n.children));
  }

  /** Helper of InsertedDecisionAddsOne: where the children land after the
      insertion. */
  lemma {:induction false} InsertionShifts(cs: seq<Node>, j: nat, d: Node, ds: seq<Node>)
    requires j <= |cs| && ds == cs[..j] + [d] + cs[j..]
    ensures |ds| == |cs| + 1 && ds[j] == d && ds[..j] == cs[..j]
    ensures forall x :: 0 <= x < j ==> ds[x] == cs[x]
    ensures forall x :: j <= x < |cs| ==> ds[x + 1] == cs[x]
  {
  }

  /** Helper of InsertedDecisionAddsOne: the first return moves one place
      along. */
  lemma {:induction false} InsertionMovesFirstReturn(cs: seq<Node>, j: nat, d: Node, ds: seq<Node>)
    requires j <= FirstReturn(cs) && d.kind in DecisiveKinds
    requires |ds| == |cs| + 1 && ds[j] == d
    requires forall x :: 0 <= x < j ==> ds[x] == cs[x]
    requires forall x :: j <= x < |cs| ==> ds[x + 1] == cs[x]
    ensures FirstReturn(ds) == FirstReturn(cs) + 1
  {
    var cut := FirstReturn(cs);
    forall y | 0 <= y < cut + 1
      ensures ds[y].kind != ReturnStmt
    {
      if y > j {
        assert ds[(y - 1) + 1] == cs[y - 1];
      }
    }
    if cut < |cs| {
      assert ds[cut + 1] == cs[cut];
    }
    FirstReturnIs(ds, cut + 1);
  }

  /** Helper of InsertedDecisionAddsOne: past the inserted decision point, the walk of
      the longer child list is one decision ahead. */
  lemma {:induction false} ShiftedWalk(n: Node, m: Node, j: nat, i: nat)
    requires j <= i <= |n.children|
    requires |m.children| == |n.children| + 1
    requires m.children[j].kind in DecisiveKinds && KeyPointsOf(m.children[j], false) == Tally(0, 0)
    requires forall x :: j <= x < |n.children| ==> m.children[x + 1] == n.children[x]
    requires Walked(m, j) == Walked(n, j)
    ensures Walked(m, i + 1) == Tally(Walked(n, i).decisions + 1, Walked(n, i).exits)
    decreases i
  {
    if i > j {
      ShiftedWalk(n, m, j, i - 1);
      ShiftStep(n, m, i);
    }
  }

  /** One step of ShiftedWalk. */
  lemma {:induction false} ShiftStep(n: Node, m: Node, i: nat)
    requires 0 < i <= |n.children| && i < |m.children|
    requires m.children[i] == n.children[i - 1]
    requires Walked(m, i) == Tally(Walked(n, i - 1).decisions + 1, Walked(n, i - 1).exits)
    ensures Walked(m, i + 1) == Tally(Walked(n, i).decisions + 1, Walked(n, i).exits)
  {
  }

  /** Whether `path` names a place to put a new node: its last position is
      a place among the children of the node that the positions before it
      lead down to. */
  predicate InsertionPoint(n: Node, path: seq<nat>)
    decreases |path|
  {
    if |path| == 0 then false
    else if |path| == 1 then path[0] <= |n.children|
    else path[0] < |n.children| && InsertionPoint(n.children[path[0]], path[1..])
  }

  /** `n` with the node `d` put at the place `path` names; every node on the
      way down keeps its kind and file. */
  function InsertAt(n: Node, path: seq<nat>, d: Node): (m: Node)
    requires InsertionPoint(n, path)
    ensures m.kind == n.kind && m.file == n.file
    ensures |path| == 1 ==> m.children == n.children[..path[0]] + [d] + n.children[path[0]..]
    ensures |path| > 1 ==> m.children == n.children[path[0] := InsertAt(n.children[path[0]], path[1..], d)]
    decreases |path|
  {
    if |path| == 1 then Node(n.kind, n.file, n.children[..path[0]] + [d] + n.children[path[0]..])
    else Node(n.kind, n.file, n.children[path[0] := InsertAt(n.children[path[0]], path[1..], d)])
  }

  /** Below the top level, one more decision point at any depth, with no
      decision and no return beneath it, adds
      exactly one decision and no exit. */
  lemma {:induction false} NestedInsertedDecisionAddsOne(n: Node, path: seq<nat>, d: Node)
    requires InsertionPoint(n, path)
    requires d.kind in DecisiveKinds && KeyPointsOf(d, false) == Tally(0, 0)
    ensures KeyPointsOf(InsertAt(n, path, d), false)
         == Tally(KeyPointsOf(n, false).decisions + 1, KeyPointsOf(n, false).exits)
    decreases |path|
  {
    var m := InsertAt(n, path, d);
    var i := path[0];
    if |path| == 1 {
      InsertionShifts(n.children, i, d, m.children);
      WalkedSharedPrefix(n, m, i);
      ShiftedWalk(n, m, i, |n.children|);
    } else {
      NestedInsertedDecisionAddsOne(n.children[i], path[1..], d);
      ReplacedChildWalked(n, m, i, |n.children|);
    }
  }

  /** At the top level, one more decision point at any depth, with no
      decision and no return beneath it, adds
      exactly one decision and no exit, as long as the walk reaches it:
      inside a child before the first direct return, or among the top-level
      children no later than that return. */
  lemma {:induction false} DecisionInsertedAnywhereAddsOne(n: Node, path: seq<nat>, d: Node)
    requires InsertionPoint(n, path)
    requires path[0] < FirstReturn(n.children) || (|path| == 1 && path[0] == FirstReturn(n.children))
    requires d.kind in DecisiveKinds && KeyPointsOf(d, false) == Tally(0, 0)
    ensures KeyPointsOf(InsertAt(n, path, d), true)
         == Tally(KeyPointsOf(n, true).decisions + 1, KeyPointsOf(n, true).exits)
  {
    var m := InsertAt(n, path, d);
    var i, k := path[0], FirstReturn(n.children);
    if |path| == 1 {
      assert m.children == n.children[..i] + [d] + n.children[i..];
      InsertedDecisionAddsOne(n, i, d);
    } else {
      NestedInsertedDecisionAddsOne(n.children[i], path[1..], d);
      assert forall j :: 0 <= j < |n.children| ==> m.children[j].kind == n.children[j].kind;
      FirstReturnIs(m.children, k);
      ReplacedChildWalked(n, m, i, k);
    }
  }

  /** Helper of the insertion lemmas: replacing child `i` by one of the same
      kind whose own walk has one more decision puts every walk past it one
      decision ahead. */
  lemma {:induction false} ReplacedChildWalked(n: Node, m: Node, i: nat, k: nat)
    requires i < k <= |n.children| && |m.children| == |n.children|
    requires forall x :: 0 <= x < |n.children| && x != i ==> m.children[x] == n.children[x]
    requires m.children[i].kind == n.children[i].kind
    requires KeyPointsOf(m.children[i], false)
          == Tally(KeyPointsOf(n.children[i], false).decisions + 1, KeyPointsOf(n.children[i], false).exits)
    ensures Walked(m, k) == Tally(Walked(n, k).decisions + 1, Walked(n, k).exits)
    decreases k
  {
    if k == i + 1 {
      assert m.children[..i] == n.children[..i];
      WalkedSharedPrefix(n, m, i);
    } else {
      ReplacedChildWalked(n, m, i, k - 1);
      assert m.children[k - 1] == n.children[k - 1];
    }
  }

  /** The walk's counts only grow as it goes over more children. */
  lemma {:induction false} WalkedGrows(n: Node, i: nat, j: nat)
    requires i <= j <= |n.children|
    ensures Walked(n, i).decisions <= Walked(n, j).decisions
    ensures Walked(n, i).exits <= Walked(n, j).exits
    decreases j
  {
    if i < j {
      var c := n.children[j - 1];
      WalkedGrows(n, i, j - 1);
      WalkedNonNegative(c, |c.children|);
    }
  }

  /** A direct return that the top-level walk stops at is counted by the
      walk over all the children. */
  lemma {:induction false} FirstReturnCounted(n: Node)
    ensures FirstReturn(n.children) < |n.children| ==> Walked(n, |n.children|).exits >= 1
  {
    var k := FirstReturn(n.children);
    if k < |n.children| {
      assert Walked(n, k + 1).exits >= 1 by {
        var c := n.children[k];
        WalkedNonNegative(n, k);
        WalkedNonNegative(c, |c.children|);
      }
      WalkedGrows(n, k + 1, |n.children|);
    }
  }

  /** A body with no decision point and no return anywhere below it has no
      decision and only the implicit exit. */
  lemma {:induction false} NoKeyPointsBelow(n: Node)
    requires CountOf(Descendants(n), DecisiveKinds) == 0
    requires CountOf(Descendants(n), {ReturnStmt}) == 0
    ensures KeyPointsOf(n, true) == Tally(0, 1)
  {
    WalkedIsCensus(n, |n.children|);
    FirstReturnCounted(n);
    assert FirstReturn(n.children) == |n.children|;
    TopLevelWithoutReturn(n);
  }
}

=== FILE: scenarios.dfy ===
/** Small translation units of a source file `src`, worked through the
    walk, discovery and the filter. */
module Scenarios {
  import opened Syntax
  import opened KeyPoints
  import opened Discovery
  import opened Threshold

  /** A childless cursor of a kind the walk does not distinguish (a
      literal, a reference to a variable). */
  function Leaf(src: string): Node { Node(Other, Some(src), []) }

  function Block(src: string, stmts: seq<Node>): Node { Node(Other, Some(src), stmts) }

  /** `int f() { return 1; }` */
  function ReturnOnly(src: string): Node
  {
    Node(FunctionDecl, Some(src), [Block(src, [Node(ReturnStmt, Some(src), [Leaf(src)])])])
  }

  /** `int g(int a, int b) { if (a) { if (b) {} } return 0; }` */
  function NestedIfs(src: string): Node
  {
    var inner := Node(IfStmt, Some(src), [Leaf(src), Block(src, [])]);
    var outer := Node(IfStmt, Some(src), [Leaf(src), Block(src, [inner])]);
    Node(FunctionDecl, Some(src), [
      Node(ParmDecl, Some(src), []),
      Node(ParmDecl, Some(src), []),
      Block(src, [outer, Node(ReturnStmt, Some(src), [Leaf(src)])])])
  }

  /** `void h(int a) { if (a) {} }` */
  function OneIf(src: string): Node
  {
    Node(FunctionDecl, Some(src), [
      Node(ParmDecl, Some(src), []),
      Block(src, [Node(IfStmt, Some(src), [Leaf(src), Block(src, [])])])])
  }

  /** `int p(int a);`, a prototype */
  function Prototype(src: string): Node
  {
    Node(FunctionDecl, Some(src), [Node(ParmDecl, Some(src), [])])
  }

  /** The translation unit of `src` with a definition from another file,
      `header`, in front of the functions above. */
  function Unit(src: string, header: string): Node
  {
    Node(Other, None, [
      Node(FunctionDecl, Some(header), [Block(header, [])]),
      ReturnOnly(src), Prototype(src), NestedIfs(src), OneIf(src)])
  }

  /** A cursor without children adds nothing below itself. */
  lemma {:induction false} ChildlessWalk(n: Node)
    requires n.children == []
    ensures KeyPointsOf(n, false) == Tally(0, 0)
  {
  }

  /** A condition followed by an empty block adds nothing below an if. */
  lemma {:induction false} EmptyIfWalk(src: string)
    ensures KeyPointsOf(Node(IfStmt, Some(src), [Leaf(src), Block(src, [])]), false) == Tally(0, 0)
  {
    var n := Node(IfStmt, Some(src), [Leaf(src), Block(src, [])]);
    ChildlessWalk(Leaf(src));
    ChildlessWalk(Block(src, []));
    assert Walked(n, 1) == Tally(0, 0);
  }

  /** A body that is a single top-level return: the return is the one exit,
      the walk stops there and the complexity is 1. */
  lemma {:induction false} ReturnOnlyHasComplexityOne(src: string)
    ensures Complexities(ReturnOnly(src), src) == [Measured(ReturnOnly(src), 1)]
  {
    var body := ReturnOnly(src).children[0];
    assert KeyPointsOf(body, true) == Tally(0, 1) by {
      FirstReturnIs(body.children, 0);
    }
    assert BodyIndex(ReturnOnly(src).children) == Some(0);
  }

  lemma {:induction false} NestedIfsKeyPoints(src: string)
    ensures KeyPointsOf(NestedIfs(src).children[2], true) == Tally(2, 1)
  {
    var body := NestedIfs(src).children[2];
    var outer := body.children[0];
    var outerBlock := outer.children[1];
    EmptyIfWalk(src);
    assert KeyPointsOf(outerBlock, false) == Tally(1, 0) by {
      assert Walked(outerBlock, 1) == Tally(1, 0);
    }
    assert KeyPointsOf(outer, false) == Tally(1, 0) by {
      ChildlessWalk(Leaf(src));
      assert Walked(outer, 1) == Tally(0, 0);
    }
    FirstReturnIs(body.children, 1);
    assert Walked(body, 1) == Tally(2, 0);
  }

  /** Two nested decisions and a top-level return give 2 - 1 + 2 = 3. */
  lemma {:induction false} NestedIfsHaveComplexityThree(src: string)
    ensures Complexities(NestedIfs(src), src) == [Measured(NestedIfs(src), 3)]
  {
    NestedIfsKeyPoints(src);
    assert BodyIndex(NestedIfs(src).children) == Some(2);
  }

  lemma {:induction false} OneIfKeyPoints(src: string)
    ensures KeyPointsOf(OneIf(src).children[1], true) == Tally(1, 1)
  {
    var body := OneIf(src).children[1];
    EmptyIfWalk(src);
    FirstReturnIs(body.children, 1);
    assert Walked(body, 1) == Tally(1, 0);
  }

  /** One decision and the implicit return give complexity 2. */
  lemma {:induction false} OneIfHasComplexityTwo(src: string)
    ensures Complexities(OneIf(src), src) == [Measured(OneIf(src), 2)]
  {
    OneIfKeyPoints(src);
    assert BodyIndex(OneIf(src).children) == Some(1);
  }

  /** Over the whole unit: the definition from the other file and the
      prototype are not reported, the three definitions are, in source
      order. */
  lemma {:induction false} UnitDiscovery(src: string, header: string)
    requires header != src
    ensures Complexities(Unit(src, header), src)
         == [Measured(ReturnOnly(src), 1), Measured(NestedIfs(src), 3), Measured(OneIf(src), 2)]
  {
    var u := Unit(src, header);
    ReturnOnlyHasComplexityOne(src);
    NestedIfsHaveComplexityThree(src);
    OneIfHasComplexityTwo(src);
    assert Complexities(u.children[0], src) == [];
    assert ComplexitiesOf(u, 1, src) == [];
    assert u.children[1] == ReturnOnly(src) && u.children[2] == Prototype(src);
    assert u.children[3] == NestedIfs(src) && u.children[4] == OneIf(src);
    assert BodyIndex(Prototype(src).children) == None;
    assert ComplexitiesOf(u, 2, src) == [Measured(ReturnOnly(src), 1)];
    assert ComplexitiesOf(u, 3, src) == [Measured(ReturnOnly(src), 1)];
    assert ComplexitiesOf(u, 4, src) == [Measured(ReturnOnly(src), 1), Measured(NestedIfs(src), 3)];
  }

  /** `{ { return 1; } { return 2; } return 3; }`: two returns in inner
      blocks and one at the top level. */
  function ThreeReturns(src: string): Node
  {
    var ret := Node(ReturnStmt, Some(src), [Leaf(src)]);
    Block(src, [Block(src, [ret]), Block(src, [ret]), ret])
  }

  /** Three exits and no decision: 0 - 3 + 2 is below 1, so the complexity
      is clamped to 1; an `if (a) {}` put in front of the body only raises
      the sum to 0, and the complexity stays 1. */
  lemma {:induction false} ClampAbsorbsDecision(src: string)
    ensures KeyPointsOf(ThreeReturns(src), true) == Tally(0, 3)
    ensures Complexity(KeyPointsOf(ThreeReturns(src), true)) == 1
    ensures var d := Node(IfStmt, Some(src), [Leaf(src), Block(src, [])]);
      var body := ThreeReturns(src);
      Complexity(KeyPointsOf(Node(body.kind, body.file, [d] + body.children), true)) == 1
  {
    var body := ThreeReturns(src);
    var d := Node(IfStmt, Some(src), [Leaf(src), Block(src, [])]);
    EmptyIfWalk(src);
    var ret := body.children[2];
    assert Walked(ret, 1) == Tally(0, 0) by {
      ChildlessWalk(Leaf(src));
    }
    assert Walked(body.children[0], 1) == Tally(0, 1);
    assert Walked(body, 1) == Tally(0, 1);
    assert Walked(body, 2) == Tally(0, 2);
    FirstReturnIs(body.children, 2);
    assert body.children[..0] + [d] + body.children[0..] == [d] + body.children;
    InsertedDecisionAddsOne(body, 0, d);
  }

  /** With the maximum at its default of 8, a function of complexity 8 is
      not reported and one of complexity 9 is. */
  lemma {:induction false} ThresholdIsStrict(f: Node, g: Node)
    ensures Exceeding([Measured(f, 8), Measured(g, 9)], DefaultMaxComplexity) == [Measured(g, 9)]
  {
    var found := [Measured(f, 8), Measured(g, 9)];
    assert found[..1] == [Measured(f, 8)];
    assert Exceeding(found[..1], DefaultMaxComplexity) == [];
  }
}

=== FILE: subsequences.dfy ===
/** Order-preserving selection from a sequence, used to say that discovery
    and the threshold filter keep their input's order. */
module Subsequences {

  /** The elements of `s` whose flag in `keep` is set, in their order. */
  function Select<T>(s: seq<T>, keep: seq<bool>): (r: seq<T>)
    requires |keep| == |s|
    ensures |r| <= |s|
  {
    if s == [] then []
    else Select(s[..|s| - 1], keep[..|s| - 1]) + (if keep[|s| - 1] then [s[|s| - 1]] else [])
  }

  /** `a` is `b` with some elements left out and the rest in order. */
  ghost predicate IsSubsequence<T>(a: seq<T>, b: seq<T>)
  {
    exists keep: seq<bool> :: |keep| == |b| && Select(b, keep) == a
  }

  /** `n` copies of `false`. */
  function Nothing(n: nat): (keep: seq<bool>)
    ensures |keep| == n
  {
    if n == 0 then [] else Nothing(n - 1) + [false]
  }

  lemma {:induction false} SelectNothing<T>(s: seq<T>)
    ensures Select(s, Nothing(|s|)) == []
    decreases |s|
  {
    if s != [] {
      assert Nothing(|s|)[..|s| - 1] == Nothing(|s| - 1);
      SelectNothing(s[..|s| - 1]);
    }
  }

  lemma {:induction false} SelectAppend<T>(a: seq<T>, ka: seq<bool>, b: seq<T>, kb: seq<bool>)
    requires |ka| == |a| && |kb| == |b|
    ensures Select(a + b, ka + kb) == Select(a, ka) + Select(b, kb)
    decreases |b|
  {
    if b == [] {
      assert a + b == a && ka + kb == ka;
    } else {
      var n := |a + b|;
      assert (a + b)[..n - 1] == a + b[..|b| - 1];
      assert (ka + kb)[..n - 1] == ka + kb[..|b| - 1];
      SelectAppend(a, ka, b[..|b| - 1], kb[..|b| - 1]);
    }
  }
}

=== FILE: syntax.dfy ===
/** The parsed syntax tree that the complexity walk reads, as the Clang
    front-end hands it over: every cursor has a kind, an originating file
    (absent for synthesized or macro-made cursors) and its children in
    source order. */
module Syntax {

  datatype Option<+T> = None | Some(value: T)

  /** The cursor kinds the walk tells apart; every other Clang cursor kind
      is `Other` and is inert (neither a decision nor an exit). */
  datatype Kind =
    | IfStmt
    | WhileStmt
    | ForStmt
    | DefaultStmt
    | CaseStmt
    | ReturnStmt
    | FunctionDecl
    | ParmDecl
    | Other

  datatype Node = Node(kind: Kind, file: Option<string>, children: seq<Node>)

  /** The decisive cursor kinds: each one is a decision point. */
  const DecisiveKinds: set<Kind> := {IfStmt, WhileStmt, ForStmt, DefaultStmt, CaseStmt}

  /** `n` followed by all of its descendants, in pre-order. */
  function Subtree(n: Node): seq<Node>
    decreases n, |n.children| + 1
  {
    [n] + Forest(n, |n.children|)
  }

  /** The subtrees of the first `i` children of `n`, one after the other,
      each in pre-order. */
  function Forest(n: Node, i: nat): seq<Node>
    requires i <= |n.children|
    decreases n, i
  {
    if i == 0 then [] else Forest(n, i - 1) + Subtree(n.children[i - 1])
  }

  /** The strict descendants of `n`, in pre-order. */
  function Descendants(n: Node): seq<Node>
  {
    Forest(n, |n.children|)
  }

  /** How many nodes of `s` have a kind in `kinds`. */
  function CountOf(s: seq<Node>, kinds: set<Kind>): (c: nat)
    ensures c <= |s|
  {
    CountBelow(s, |s|, kinds)
  }

  /** How many of the first `i` nodes of `s` have a kind in `kinds`. */
  function CountBelow(s: seq<Node>, i: nat, kinds: set<Kind>): (c: nat)
    requires i <= |s|
    ensures c <= i
  {
    if i == 0 then 0
    else CountBelow(s, i - 1, kinds) + (if s[i - 1].kind in kinds then 1 else 0)
  }

  lemma {:induction false} CountBelowAppend(a: seq<Node>, b: seq<Node>, i: nat, kinds: set<Kind>)
    requires i <= |b|
    ensures CountBelow(a + b, |a| + i, kinds) == CountOf(a, kinds) + CountBelow(b, i, kinds)
  {
    if i == 0 {
      CountBelowPrefix(a, a + b, |a|, kinds);
    } else {
      CountBelowAppend(a, b, i - 1, kinds);
      assert (a + b)[|a| + i - 1] == b[i - 1];
    }
  }

  /** Counting the first `i` nodes only looks at those nodes. */
  lemma {:induction false} CountBelowPrefix(s: seq<Node>, t: seq<Node>, i: nat, kinds: set<Kind>)
    requires i <= |s| && i <= |t| && s[..i] == t[..i]
    ensures CountBelow(s, i, kinds) == CountBelow(t, i, kinds)
  {
    if i > 0 {
      assert s[i - 1] == s[..i][i - 1] == t[i - 1];
      assert s[..i - 1] == s[..i][..i - 1] && t[..i - 1] == t[..i][..i - 1];
      CountBelowPrefix(s, t, i - 1, kinds);
    }
  }

  lemma {:induction false} CountOfAppend(a: seq<Node>, b: seq<Node>, kinds: set<Kind>)
    ensures CountOf(a + b, kinds) == CountOf(a, kinds) + CountOf(b, kinds)
  {
    CountBelowAppend(a, b, |b|, kinds);
  }
}

=== FILE: threshold.dfy ===
/** The loop of `run`: of the discovered functions, those whose complexity
    is strictly above the configured maximum are reported. */
module Threshold {
  import opened Syntax
  import opened Subsequences
  import opened Discovery

  /** The default of the `max_complexity` setting. */
  const DefaultMaxComplexity: int := 8

  /** The pairs of `found` whose complexity exceeds `maxComplexity`, in order. */
  function Exceeding(found: seq<Measured>, maxComplexity: int): seq<Measured>
  {
    if found == [] then []
    else
      var last := found[|found| - 1];
      Exceeding(found[..|found| - 1], maxComplexity) + (if last.complexity > maxComplexity then [last] else [])
  }

  /** A pair is reported exactly when it was found with a complexity
      strictly greater than the maximum; one at the maximum is not. */
  lemma {:induction false} ExceedingKeepsExactly(found: seq<Measured>, maxComplexity: int)
    ensures forall m :: m in Exceeding(found, maxComplexity) <==> m in found && m.complexity > maxComplexity
    decreases |found|
  {
    if found != [] {
      var init := found[..|found| - 1];
      ExceedingKeepsExactly(init, maxComplexity);
      assert found == init + [found[|found| - 1]];
    }
  }

  /** Which positions of `found` the filter keeps. */
  function Over(found: seq<Measured>, maxComplexity: int): (keep: seq<bool>)
    ensures |keep| == |found|
  {
    seq(|found|, k requires 0 <= k < |found| => found[k].complexity > maxComplexity)
  }

  /** The filter keeps the order of discovery: it only leaves pairs out. */
  lemma {:induction false} ExceedingIsSubsequence(found: seq<Measured>, maxComplexity: int)
    ensures Exceeding(found, maxComplexity) == Select(found, Over(found, maxComplexity))
    ensures IsSubsequence(Exceeding(found, maxComplexity), found)
    decreases |found|
  {
    if found != [] {
      var init := found[..|found| - 1];
      ExceedingIsSubsequence(init, maxComplexity);
      assert Over(found, maxComplexity)[..|found| - 1] == Over(init, maxComplexity);
    }
  }

  /** What `run` reports for the parsed tree `root` of the file `filename`:
      the discovered functions, in order, whose complexity is above
      `maxComplexity`. */
  method Run(root: Node, filename: string, maxComplexity: int := DefaultMaxComplexity) returns (reported: seq<Measured>)
    ensures reported == Exceeding(Complexities(root, filename), maxComplexity)
    ensures forall m :: m in reported <==> m in Complexities(root, filename) && m.complexity > maxComplexity
  {
    var found := Complexities(root, filename);
    reported := [];
    var i := 0;
    while i < |found|
      invariant i <= |found|
      invariant reported == Exceeding(found[..i], maxComplexity)
    {
      var m := found[i];
      assert found[..i + 1][..i] == found[..i];
      if m.complexity > maxComplexity {
        reported := reported + [m];
      }
      i := i + 1;
    }
    assert found[..i] == found;
    ExceedingKeepsExactly(found, maxComplexity);
  }
}
